=== FILE: README.md ===
# eduRend geometry core in Dafny

A model of how eduRend's drawables turn geometry into device buffers and draw
calls, and proofs about it.

- `Geometry_t` is the shared base. It owns a vertex-buffer handle and an
  index-buffer handle. Both start null, and the destructor releases both.
- `Quad_t` is a fixed four-vertex, six-index square. It uploads its lists
  once, clears the CPU-side copies and draws with one `DrawIndexed(6, 0, 0)`.
- `OBJModel_t` takes a parsed mesh (vertices, drawcalls, materials) and
  flattens every drawcall's triangles into one index list. It records one
  index range per drawcall and copies the mesh's materials into its table.
  It then loads the diffuse texture of every material that names one,
  overwriting that material's view. Its `render` walks the ranges in stored
  order. For each range it binds the material's diffuse texture view and
  issues `DrawIndexed(size, start, 0)`.

Rendering is modelled as the sequence of device-context calls it issues
(`Device.Command`). Buffer creation is opaque. Each constructor takes the
handles `CreateBuffer` produced as parameters, and these may be null because
the source ignores the returned `HRESULT`. The model records the data handed
to the device (`Geometry.Uploads`). Texture loading is opaque in the same
way: `ObjModel.Construct` takes `load`, where `load(i)` is the view the
texture loader yields for material `i` (null when the load failed).

The range construction has two forms. `IndexRanges.Flatten` and
`IndexRanges.Ranges` are recursive reference definitions.
`IndexRanges.BuildIndexRanges` is the constructor's loop, proved equal to
them. The properties are stated independently of both:
- the ranges tile the index list (`IsPartition`);
- range `k` spans exactly drawcall `k`'s triangle indices (`MatchesDrawcalls`);
- the draws `render` issues cover every index position exactly once.

Widths are explicit where they matter:
- vertex indices, and `DrawIndexed`'s index count and start, are 32-bit `u32`;
- `DrawIndexed`'s base vertex is a 32-bit signed `i32`;
- material indices are a 32-bit signed `i32`;
- `size_t` starts and sizes are `nat`, because they cannot wrap;
- passing a `size_t` to a `UINT` parameter keeps the low 32 bits (`Narrow32`).

`render` looks up `materials[irange.mtl_index]` without a bounds check. A
drawcall with no material stores the sentinel -1 in its range. The model
therefore gives `ObjModel.Render` the precondition `MaterialsInBounds`.
`ObjModel.RenderableIff` proves that a constructed model meets it exactly
when every drawcall names an existing material.
`ObjModel.MissingMaterialReachesLookup` shows that one drawcall without a
material is enough to break it. The code has no fallback for a missing
material, so the model adds none.

## Model

| member | source | states |
|---|---|---|
| `IntTypes.Narrow32` | source/Geometry.cpp:205 | a `size_t` passed as `UINT` keeps its value below 2^32 and is congruent to it mod 2^32 otherwise |
| `Geometry.Destroy` | source/Geometry.h:58-63 | teardown nulls both handles and releases exactly the live handles, each once when they differ |
| `Geometry.DestroyReleasesOnce` | source/Geometry.h:58-63 | a second teardown after the first releases nothing, so no handle is released twice |
| `Quad.Construct` | source/Geometry.cpp:23-84 | the quad uploads the 4 vertices of `QuadVertices` and the indices 0,1,3,1,2,3. Every index is below 4 and every vertex is used. Afterwards the CPU-side vectors are empty and `nbrIndices` equals the uploaded index count |
| `Quad.Render` | source/Geometry.cpp:87-102 | render binds topology, vertex buffer and index buffer, then issues exactly one draw, `DrawIndexed(nbrIndices, 0, 0)` |
| `Quad.ConstructedQuadDrawsAllIndices` | source/Geometry.cpp:81-101 | after construction the single draw is `DrawIndexed(6, 0, 0)` and reads exactly the positions of the uploaded index list |
| `Quad.QuadTrianglesFaceNormal` | source/Geometry.cpp:26-52 | both triangles of the uploaded quad are non-degenerate and counter-clockwise seen from +z, the direction of every vertex normal |
| `IndexRanges.NormalizeMtl` | source/Geometry.cpp:128 | a drawcall's material index is kept when non-negative, and every negative index becomes -1 |
| `IndexRanges.FlattenTris` | source/Geometry.cpp:123-127 | a drawcall's triangles contribute exactly three indices each |
| `IndexRanges.FlattenTrisLayout` | source/Geometry.cpp:123-124 | triangle `i` occupies positions 3i..3i+2 of the flattened list, in vertex order |
| `IndexRanges.RangesCorrect` | source/Geometry.cpp:117-132 | the ranges tile the flat index list: the first starts at 0, each starts where the previous ended, the last ends at the count. Each has one range per drawcall in order, size 3 x triangle count, `ofs` 0, a normalised material index (non-negative kept, negative becomes -1), and spans exactly that drawcall's indices |
| `IndexRanges.LastRangeTiles` | source/Geometry.cpp:129-131 | one more drawcall keeps the tiling: its range starts where the previous ones ended and ends at the new index count |
| `IndexRanges.LastRangeMatches` | source/Geometry.cpp:120-131 | one more drawcall keeps every range matched to its drawcall |
| `IndexRanges.RangeMatchesAt` | source/Geometry.cpp:120-131 | after one more drawcall, an earlier range still spans its drawcall's indices and the new range spans the new drawcall's indices |
| `IndexRanges.NewRangeMatches` | source/Geometry.cpp:123-131 | the range pushed for the newest drawcall starts at the previous index count and spans exactly that drawcall's triangle indices |
| `IndexRanges.OldRangeMatches` | source/Geometry.cpp:120-131 | after one more drawcall, a range pushed earlier still spans its own drawcall's indices in the grown index list |
| `IndexRanges.EarlierRangeKept` | source/Geometry.cpp:124 | appending indices does not change the slice an earlier range spans |
| `IndexRanges.PartitionOrdered` | source/Geometry.cpp:129-131 | in the tiling an earlier range ends no later than a later one starts |
| `IndexRanges.PartitionBounded` | source/Geometry.cpp:129-131 | every range of the tiling ends within the index count |
| `IndexRanges.FindRange` | source/Geometry.cpp:129-131 | every position below the index count lies in some range |
| `IndexRanges.PartitionCovers` | source/Geometry.cpp:118-131 | the tiling covers each index position exactly once and nothing beyond the index count |
| `IndexRanges.PartitionSum` | source/Geometry.cpp:118-131 | the range sizes sum to the index count |
| `IndexRanges.PrefixStep` | source/Geometry.cpp:120-131 | one more drawcall appends its triangle indices and exactly one range, starting at the previous index count |
| `IndexRanges.AppendTris` | source/Geometry.cpp:123-124 | the inner loop appends the drawcall's flattened triangle indices after the existing ones |
| `IndexRanges.BuildIndexRanges` | source/Geometry.cpp:117-132 | the constructor loop (append triangle indices, push range at `i_ofs`, reset `i_ofs` to the index count) yields the reference index list and ranges, hence a tiling matched to the drawcalls |
| `ObjModel.AppendMaterials` | source/Geometry.h:115-118 | the table grows by exactly the appended count. Old entries stay in place and order, and the new ones follow in order |
| `ObjModel.AppendMaterialsLaws` | source/Geometry.h:115-118 | appending nothing changes nothing; two appends equal one append of both lists |
| `ObjModel.LoadTextures` | source/Geometry.cpp:164-177 | the loop keeps every material in place with its texture path. A material with a non-empty path gets the loader's view for it, whatever earlier loads yielded. A material without one keeps its view |
| `ObjModel.LoadFailureIsLocal` | source/Geometry.cpp:164-177 | a different (for example failed) load of one material changes no other material's entry |
| `ObjModel.Construct` | source/Geometry.cpp:105-177 | the model uploads the mesh's vertices and a flat index list that its ranges tile, one per drawcall and each spanning that drawcall's indices. The sizes sum to the index count. The material table starts empty and is appended once with the mesh's materials, in order. It then holds the same paths with the views texture loading gave |
| `ObjModel.DrawRanges` | source/Geometry.cpp:198-206 | per stored range, in order, the loop binds that range's material texture and then draws it |
| `ObjModel.Render` | source/Geometry.cpp:183-206 | render binds the buffers once, then per range binds the diffuse view of `materials[mtl_index]` and issues `DrawIndexed(size, start, 0)`. It is defined only when every material index is in bounds |
| `ObjModel.DrawRangesDraws` | source/Geometry.cpp:198-206 | the per-range loop issues one draw per range, in stored order |
| `ObjModel.RenderDraws` | source/Geometry.cpp:183-206 | render issues exactly one `DrawIndexed` per stored range, in stored order, and no other draw |
| `ObjModel.RenderableIff` | source/Geometry.cpp:198-201 | the unchecked material lookup is in bounds for every range exactly when every drawcall's material index lies in [0, material count) |
| `ObjModel.MissingMaterialReachesLookup` | source/Geometry.cpp:128-129 | a drawcall with a negative material index gets a range with -1, and the model's render precondition fails |
| `ObjModel.DrawsKeepRanges` | source/Geometry.cpp:198-206 | when the ranges tile fewer than 2^32 positions, each draw carries its range's start and size unchanged by the narrowing to `UINT` |
| `ObjModel.DrawsCoverAll` | source/Geometry.cpp:198-206 | every position of a tiled index list below 2^32 is read by some draw |
| `ObjModel.DrawsDisjoint` | source/Geometry.cpp:198-206 | no position is read by two draws, and no draw reads outside the index list |
| `ObjModel.DrawReadsDrawcall` | source/Geometry.cpp:205 | the draw for a range matched to its drawcall reads exactly that drawcall's triangle indices |
| `ObjModel.DrawsReadDrawcalls` | source/Geometry.cpp:198-206 | draw `k` reads exactly drawcall `k`'s triangle indices |
| `ObjModel.PartitionDraws` | source/Geometry.cpp:198-206 | when the index count fits a `UINT`, the draws for ranges that tile it and match the drawcalls lose nothing to narrowing. They read every position exactly once, and draw `k` reads drawcall `k`'s indices (`DrawsTile`) |
| `ObjModel.RenderCoversIndexBuffer` | source/Geometry.cpp:198-206 | for a constructed model, render's draws cover [0, index count) without overlap, and draw `k` reads exactly drawcall `k`'s triangle indices |
| `ObjModel.PartitionExample` | source/Geometry.cpp:117-132 | drawcalls of 6, 12 and 3 triangles give ranges (0,18), (18,36), (54,9) over 63 indices |
| `ObjModel.TwoMaterialScenario` | source/Geometry.cpp:120-205 | drawcalls of 2 and 4 triangles with materials 0 and 1 give 2 ranges and 18 indices. Render binds material 0's loaded view, draws (6, 0), binds material 1's loaded view, draws (12, 6) |

## Left out

- Camera, point light, shader buffer layouts and the application shell
  (`Camera.h`, `PointLight.h`, `ShaderBuffers.h`, `Main.cpp`) are not part of
  this model. They are floating-point matrix math over an external linear
  algebra library, plus Win32/Direct3D setup and I/O.
- `Geometry_t::MapMatrixBuffers` is left out. It is a device map/discard write
  of transposed float matrices.
- The texture loader (`DirectX::CreateWICTextureFromFile`) is a foreign call.
  The view it writes into each textured material is the parameter
  `load(i)`, null when loading fails. The texture resource it also writes
  (`map_Kd_Tex`) and the progress line it prints are not modelled.
- The OBJ parser (`mesh_t::load_obj`) is not part of this model. Its output is
  the model's input (`Mesh.MeshData`).
- `CreateBuffer` is opaque. The handles it returns are parameters, and its
  ignored `HRESULT`s are not modelled. The model does not record the order
  of the two creations or the buffer descriptors' byte widths.
- The `Cube_t` constructor and render, the `Geometry_t` constructor,
  `CreateSampler`, `MapMaterialBuffers` and `compute_tangentspace` are
  declared in `Geometry.h` but not defined in `Geometry.h` or `Geometry.cpp`,
  so they are not modelled.
- `material_t` is reduced to its diffuse texture path and view. `vertex_t`
  keeps position, normal and texture coordinate, stored as reals. The
  remaining fields are never read by this core.
- ObjModel.Construct: builds normally for a mesh with no vertices or no
  triangles. The source then takes `&v[0]` of an empty vector when it sets
  the initial data (`pSysMem`) passed to `CreateBuffer` (`Geometry.cpp:143`,
  `Geometry.cpp:156`), which is undefined behaviour. The model does not flag
  that case.
- The initialiser `nbr_indices = 0` of `Quad_t` (`Geometry.h:72`) is not
  modelled: the `Quad_t` constructor always overwrites it before `render` can
  read it, so `Quad.Construct` sets `nbrIndices` directly.
- Geometry.Destroy: assumes `SAFE_RELEASE` is the usual "release if non-null,
  then set to null". Its definition lies outside `Geometry.h` and `Geometry.cpp`.
- ObjModel.RenderCoversIndexBuffer: stated only for index counts below 2^32.
  Above that, `DrawIndexed`'s 32-bit arguments wrap (see `IntTypes.Narrow32`).

=== FILE: device.dfy ===
/** The slice of the Direct3D 11 device context that the geometry core talks to,
    reduced to a vocabulary of handles and issued commands. Rendering is modelled
    as the sequence of commands it issues. */
module Device {
  import opened IntTypes

  /** A COM interface pointer: `nullptr`, or a live device object named by `id`. */
  datatype Handle = Null | Live(id: nat)

  /** One call on the device context. */
  datatype Command =
    | SetTriangleList                                   // IASetPrimitiveTopology(TRIANGLELIST)
    | BindVertexBuffer(vertexBuffer: Handle)            // IASetVertexBuffers(0, 1, &vb, &stride, &offset 0)
    | BindIndexBuffer(indexBuffer: Handle)              // IASetIndexBuffer(ib, R32_UINT, 0)
    | BindTexture(view: Handle)                         // PSSetShaderResources(0, 1, &view)
    | DrawIndexed(count: u32, start: u32, baseVertex: i32)

  /** The indexed draws of a trace, in issue order. */
  function Draws(trace: seq<Command>): (draws: seq<Command>)
    ensures |draws| <= |trace|
    ensures forall i :: 0 <= i < |draws| ==> draws[i].DrawIndexed?
  {
    if |trace| == 0 then []
    else (if trace[0].DrawIndexed? then [trace[0]] else []) + Draws(trace[1..])
  }

  /** Filtering the draws out of a trace distributes over concatenation. */
  lemma {:induction false} DrawsAppend(a: seq<Command>, b: seq<Command>)
    ensures Draws(a + b) == Draws(a) + Draws(b)
  {
    if |a| == 0 {
      assert a + b == b;
    } else {
      assert (a + b)[1..] == a[1..] + b;
      DrawsAppend(a[1..], b);
    }
  }

  /** Index position `p` of the bound index buffer is read by draw `d`. */
  predicate Covers(d: Command, p: int)
  {
    d.DrawIndexed? && Within(p, d.start, d.count)
  }
}

=== FILE: geometry.dfy ===
/** `Geometry_t`: the base every drawable shares. It exclusively owns one vertex
    buffer and one index buffer on the device, both null until a constructor
    creates them and both released by the destructor. */
module Geometry {
  import opened IntTypes
  import opened Device
  import opened Mesh

  /** The two owned buffer handles. */
  datatype Buffers = Buffers(vertexBuffer: Handle, indexBuffer: Handle)

  /** The handles as the member initialisers leave them. */
  const Unset: Buffers := Buffers(Null, Null)

  /** The initial data a constructor passes to `CreateBuffer` for the vertex and
      the index buffer. Buffer creation itself is opaque: the handle it yields
      is a parameter of each constructor, and may be null. */
  datatype Uploads = Uploads(vertexData: seq<Vertex>, indexData: seq<u32>)

  /** The binding prefix of every `render`: topology, vertex buffer, index buffer. */
  function Bind(b: Buffers): seq<Command>
  {
    [SetTriangleList, BindVertexBuffer(b.vertexBuffer), BindIndexBuffer(b.indexBuffer)]
  }

  /** Binding issues no draw. */
  lemma BindDrawsNothing(b: Buffers)
    ensures Draws(Bind(b)) == []
  {
    var t := Bind(b);
    assert t[3..] == [] && t[2..][1..] == t[3..] && t[1..][1..] == t[2..];
    assert Draws(t[2..]) == [];
    assert Draws(t[1..]) == [];
  }

  /** What a teardown did: the ids released, in order, and the handles afterwards. */
  datatype Teardown = Teardown(released: seq<nat>, after: Buffers)

  /** `SAFE_RELEASE(p)`: release a live handle and null it; a null handle is left alone. */
  function SafeRelease(h: Handle): (r: (seq<nat>, Handle))
  {
    match h
    case Null => ([], Null)
    case Live(id) => ([id], Null)
  }

  /** `~Geometry_t`: releases the vertex buffer, then the index buffer. */
  function Destroy(b: Buffers): (t: Teardown)
    ensures t.after == Unset
    ensures forall id :: id in t.released <==> Live(id) == b.vertexBuffer || Live(id) == b.indexBuffer
    ensures b.vertexBuffer != b.indexBuffer ==>
      forall id :: multiset(t.released)[id] == (if Live(id) in {b.vertexBuffer, b.indexBuffer} then 1 else 0)
  {
    var (rv, v) := SafeRelease(b.vertexBuffer);
    var (ri, i) := SafeRelease(b.indexBuffer);
    Teardown(rv + ri, Buffers(v, i))
  }

  /** Each handle is released at most once: tearing down what a teardown left
      releases nothing further. */
  lemma DestroyReleasesOnce(b: Buffers)
    ensures Destroy(Destroy(b).after).released == []
    ensures Destroy(b).after == Destroy(Destroy(b).after).after
  {
  }
}

=== FILE: index_ranges.dfy ===
/** How `OBJModel_t`'s constructor flattens the mesh's drawcalls into one index
    list and a list of index ranges, one per drawcall. The reference definitions
    recurse on the last drawcall, the order in which the constructor's loop
    grows its vectors. */
module IndexRanges {
  import opened IntTypes
  import opened Mesh

  /** `index_range_t`: `start` and `size` are `size_t`, `ofs` is `unsigned`,
      `mtlIndex` is a signed `int` (so the -1 sentinel can be stored). */
  datatype IndexRange = IndexRange(start: nat, size: nat, ofs: u32, mtlIndex: i32)

  /** One past the last index position of the range. */
  function End(r: IndexRange): nat
  {
    r.start + r.size
  }

  /** Index position `p` lies in the range. */
  predicate InRange(r: IndexRange, p: int)
  {
    Within(p, r.start, r.size)
  }

  /** Some range of `rs` holds position `p`. */
  predicate Covered(rs: seq<IndexRange>, p: int)
  {
    exists i :: 0 <= i < |rs| && InRange(rs[i], p)
  }

  /** A material index as stored in a range: negative values collapse to -1. */
  function NormalizeMtl(m: i32): (r: i32)
    ensures m >= 0 ==> r == m
    ensures m < 0 ==> r == -1
  {
    if m > -1 then m else -1
  }

  /** The indices of `tris`, three per triangle, in order. */
  function FlattenTris(tris: seq<Tri>): (ix: seq<u32>)
    ensures |ix| == 3 * |tris|
  {
    if |tris| == 0 then [] else FlattenTris(tris[..|tris| - 1]) + TriIndices(tris[|tris| - 1])
  }

  /** The flat index list: every drawcall's triangle indices, in drawcall order. */
  function Flatten(dcs: seq<Drawcall>): seq<u32>
  {
    if |dcs| == 0 then [] else Flatten(dcs[..|dcs| - 1]) + FlattenTris(dcs[|dcs| - 1].tris)
  }

  /** The ranges: each drawcall's range starts where the index list ended
      before that drawcall's triangles were appended. */
  function Ranges(dcs: seq<Drawcall>): seq<IndexRange>
  {
    if |dcs| == 0 then []
    else
      var init := dcs[..|dcs| - 1];
      var dc := dcs[|dcs| - 1];
      Ranges(init) + [IndexRange(|Flatten(init)|, 3 * |dc.tris|, 0, NormalizeMtl(dc.mtlIndex))]
  }

  /** The ranges tile `[0, total)` in order: the first starts at 0, each next one
      starts where the previous ended, and the last ends at `total`. */
  predicate IsPartition(rs: seq<IndexRange>, total: nat)
  {
    && (|rs| == 0 ==> total == 0)
    && (|rs| > 0 ==> rs[0].start == 0 && End(rs[|rs| - 1]) == total)
    && (forall i, j :: 0 <= i < |rs| && 0 <= j < |rs| && j == i + 1 ==> rs[j].start == End(rs[i]))
  }

  /** Range `i` belongs to drawcall `i`: its size is three indices per
      triangle, its material index is the normalised one, its `ofs` is 0, and
      the indices it spans are exactly that drawcall's triangle indices. */
  predicate MatchesDrawcalls(rs: seq<IndexRange>, dcs: seq<Drawcall>, indices: seq<u32>)
  {
    && |rs| == |dcs|
    && forall i :: 0 <= i < |rs| ==> RangeMatches(rs[i], dcs[i], indices)
  }

  /** One range for one drawcall: see `MatchesDrawcalls`. */
  predicate RangeMatches(r: IndexRange, dc: Drawcall, indices: seq<u32>)
  {
    && r.size == 3 * |dc.tris|
    && r.ofs == 0
    && r.mtlIndex == NormalizeMtl(dc.mtlIndex)
    && End(r) <= |indices|
    && indices[r.start..End(r)] == FlattenTris(dc.tris)
  }

  /** Triangle `i` of a drawcall occupies positions `3i`, `3i+1`, `3i+2` of its
      flattened index list. */
  lemma {:induction false} FlattenTrisLayout(tris: seq<Tri>)
    ensures forall i :: 0 <= i < |tris| ==> FlattenTris(tris)[3 * i..3 * i + 3] == TriIndices(tris[i])
  {
    if |tris| > 0 {
      var init := tris[..|tris| - 1];
      FlattenTrisLayout(init);
      var ix := FlattenTris(tris);
      assert ix == FlattenTris(init) + TriIndices(tris[|tris| - 1]);
      forall i | 0 <= i < |tris|
        ensures ix[3 * i..3 * i + 3] == TriIndices(tris[i])
      {
        if i < |tris| - 1 {
          assert tris[i] == init[i];
          assert ix[3 * i..3 * i + 3] == FlattenTris(init)[3 * i..3 * i + 3];
        } else {
          assert ix[3 * i..3 * i + 3] == ix[|FlattenTris(init)|..];
        }
      }
    }
  }

  /** The reference construction yields one range per drawcall, in order,
      tiling the flat index list, each spanning its own drawcall's indices. */
  lemma {:induction false} RangesCorrect(dcs: seq<Drawcall>)
    ensures IsPartition(Ranges(dcs), |Flatten(dcs)|)
    ensures MatchesDrawcalls(Ranges(dcs), dcs, Flatten(dcs))
  {
    if |dcs| > 0 {
      RangesCorrect(dcs[..|dcs| - 1]);
      LastRangeTiles(dcs);
      LastRangeMatches(dcs);
    }
  }

  /** The step of `RangesCorrect` for the tiling: the new range starts where
      the previous ones ended and ends at the new index count. */
  lemma LastRangeTiles(dcs: seq<Drawcall>)
    requires |dcs| > 0
    requires IsPartition(Ranges(dcs[..|dcs| - 1]), |Flatten(dcs[..|dcs| - 1])|)
    ensures IsPartition(Ranges(dcs), |Flatten(dcs)|)
  {
    var init := dcs[..|dcs| - 1];
    var rs := Ranges(dcs);
    assert rs == Ranges(init) + [rs[|rs| - 1]];
    if |init| > 0 {
      assert rs[0] == Ranges(init)[0];
      assert End(rs[|rs| - 2]) == |Flatten(init)|;
    }
  }

  /** The step of `RangesCorrect` for the drawcall match: earlier ranges keep
      their slices, the new range spans the new drawcall's indices. */
  lemma LastRangeMatches(dcs: seq<Drawcall>)
    requires |dcs| > 0
    requires MatchesDrawcalls(Ranges(dcs[..|dcs| - 1]), dcs[..|dcs| - 1], Flatten(dcs[..|dcs| - 1]))
    ensures MatchesDrawcalls(Ranges(dcs), dcs, Flatten(dcs))
  {
    forall i | 0 <= i < |dcs|
      ensures RangeMatches(Ranges(dcs)[i], dcs[i], Flatten(dcs))
    {
      RangeMatchesAt(dcs, i);
    }
  }

  /** Range `i` after one more drawcall: an earlier range keeps its slice of
      the grown index list, the new one spans the new drawcall's indices. */
  lemma RangeMatchesAt(dcs: seq<Drawcall>, i: nat)
    requires i < |dcs|
    requires MatchesDrawcalls(Ranges(dcs[..|dcs| - 1]), dcs[..|dcs| - 1], Flatten(dcs[..|dcs| - 1]))
    ensures |Ranges(dcs)| == |dcs|
    ensures RangeMatches(Ranges(dcs)[i], dcs[i], Flatten(dcs))
  {
    NewRangeMatches(dcs);
    if i < |dcs| - 1 {
      OldRangeMatches(dcs, i);
    }
  }

  /** A range already present before one more drawcall still spans its
      drawcall's indices in the grown index list. */
  lemma OldRangeMatches(dcs: seq<Drawcall>, i: nat)
    requires i < |dcs| - 1
    requires MatchesDrawcalls(Ranges(dcs[..|dcs| - 1]), dcs[..|dcs| - 1], Flatten(dcs[..|dcs| - 1]))
    ensures RangeMatches(Ranges(dcs)[i], dcs[i], Flatten(dcs))
  {
    var init := dcs[..|dcs| - 1];
    var dc := dcs[|dcs| - 1];
    assert Flatten(dcs) == Flatten(init) + FlattenTris(dc.tris);
    assert dcs[i] == init[i];
    EarlierRangeKept(Ranges(init)[i], init[i], Flatten(init), FlattenTris(dc.tris));
  }

  /** The range one more drawcall adds spans exactly that drawcall's indices,
      at the end of the grown index list. */
  lemma NewRangeMatches(dcs: seq<Drawcall>)
    requires |dcs| > 0
    ensures |Ranges(dcs)| == |dcs|
    ensures RangeMatches(Ranges(dcs)[|dcs| - 1], dcs[|dcs| - 1], Flatten(dcs))
  {
    var init := dcs[..|dcs| - 1];
    var prev := Flatten(init);
    var dc := dcs[|dcs| - 1];
    assert Flatten(dcs) == prev + FlattenTris(dc.tris);
    assert Flatten(dcs)[|prev|..] == FlattenTris(dc.tris);
  }

  /** A range matching its drawcall in an index list still matches it after
      more indices are appended. */
  lemma EarlierRangeKept(r: IndexRange, dc: Drawcall, prev: seq<u32>, more: seq<u32>)
    requires RangeMatches(r, dc, prev)
    ensures RangeMatches(r, dc, prev + more)
  {
    assert (prev + more)[r.start..End(r)] == prev[r.start..End(r)];
  }

  /** In a partition an earlier range ends no later than a later one starts,
      and every range ends within the total. */
  lemma {:induction false} PartitionOrdered(rs: seq<IndexRange>, total: nat, i: nat, j: nat)
    requires IsPartition(rs, total)
    requires i < j < |rs|
    ensures End(rs[i]) <= rs[j].start
    decreases j - i
  {
    if i + 1 < j {
      PartitionOrdered(rs, total, i + 1, j);
    }
  }

  /** Every range of a partition ends within the total. */
  lemma PartitionBounded(rs: seq<IndexRange>, total: nat, i: nat)
    requires IsPartition(rs, total)
    requires i < |rs|
    ensures End(rs[i]) <= total
  {
    if i < |rs| - 1 {
      PartitionOrdered(rs, total, i, |rs| - 1);
    }
  }

  /** A partition of `[0, total)` covers every position exactly once and
      nothing outside it. */
  lemma {:induction false} PartitionCovers(rs: seq<IndexRange>, total: nat)
    requires IsPartition(rs, total)
    ensures forall p :: 0 <= p < total ==> Covered(rs, p)
    ensures forall i, j, p :: 0 <= i < |rs| && 0 <= j < |rs| && InRange(rs[i], p) && InRange(rs[j], p) ==> i == j
    ensures forall i, p :: 0 <= i < |rs| && InRange(rs[i], p) ==> 0 <= p < total
  {
    forall i, j, p | 0 <= i < |rs| && 0 <= j < |rs| && InRange(rs[i], p) && InRange(rs[j], p)
      ensures i == j
    {
      if i < j {
        PartitionOrdered(rs, total, i, j);
      } else if j < i {
        PartitionOrdered(rs, total, j, i);
      }
    }
    forall i, p | 0 <= i < |rs| && InRange(rs[i], p)
      ensures 0 <= p < total
    {
      PartitionBounded(rs, total, i);
    }
    forall p | 0 <= p < total
      ensures Covered(rs, p)
    {
      var i := FindRange(rs, total, p);
    }
  }

  /** The range holding position `p`: the last one starting at or before it. */
  lemma {:induction false} FindRange(rs: seq<IndexRange>, total: nat, p: nat) returns (i: nat)
    requires IsPartition(rs, total)
    requires p < total
    ensures i < |rs| && InRange(rs[i], p)
  {
    i := 0;
    while i + 1 < |rs| && rs[i + 1].start <= p
      invariant i < |rs|
      invariant rs[i].start <= p
      decreases |rs| - i
    {
      i := i + 1;
    }
    if i + 1 < |rs| {
      assert End(rs[i]) == rs[i + 1].start;
    }
  }

  /** Sum of the sizes of the ranges. */
  function SumSizes(rs: seq<IndexRange>): nat
  {
    if |rs| == 0 then 0 else SumSizes(rs[..|rs| - 1]) + rs[|rs| - 1].size
  }

  /** The sizes of a partition of `[0, total)` add up to `total`. */
  lemma {:induction false} PartitionSum(rs: seq<IndexRange>, total: nat)
    requires IsPartition(rs, total)
    ensures SumSizes(rs) == total
  {
    if |rs| > 0 {
      var init := rs[..|rs| - 1];
      var t := rs[|rs| - 1].start;
      assert IsPartition(init, t) by {
        if |init| > 0 {
          assert End(init[|init| - 1]) == t;
        }
      }
      PartitionSum(init, t);
    }
  }

  /** Growing the drawcall prefix by one appends that drawcall's indices and
      one range starting at the previous index count. */
  lemma PrefixStep(dcs: seq<Drawcall>, d: nat)
    requires d < |dcs|
    ensures Flatten(dcs[..d + 1]) == Flatten(dcs[..d]) + FlattenTris(dcs[d].tris)
    ensures Ranges(dcs[..d + 1]) ==
      Ranges(dcs[..d]) + [IndexRange(|Flatten(dcs[..d])|, 3 * |dcs[d].tris|, 0, NormalizeMtl(dcs[d].mtlIndex))]
  {
    assert dcs[..d + 1][..d] == dcs[..d];
  }

  /** The inner loop of `OBJModel_t::OBJModel_t`: append each triangle's three
      indices to `indices`. */
  method AppendTris(indices: seq<u32>, tris: seq<Tri>) returns (out: seq<u32>)
    ensures out == indices + FlattenTris(tris)
  {
    out := indices;
    for t := 0 to |tris|
      invariant out == indices + FlattenTris(tris[..t])
    {
      var tri := tris[t];
      assert tris[..t + 1][..t] == tris[..t];
      out := out + [tri.v0, tri.v1, tri.v2];
    }
    assert tris[..|tris|] == tris;
  }

  /** The drawcall loop of `OBJModel_t::OBJModel_t`: for each drawcall, append its
      triangles' indices, then record a range starting at `iOfs` and reset
      `iOfs` to the index count. Agrees with the reference construction. */
  method BuildIndexRanges(drawcalls: seq<Drawcall>) returns (indices: seq<u32>, ranges: seq<IndexRange>)
    ensures indices == Flatten(drawcalls)
    ensures ranges == Ranges(drawcalls)
    ensures IsPartition(ranges, |indices|)
    ensures MatchesDrawcalls(ranges, drawcalls, indices)
  {
    indices := [];
    ranges := [];
    var iOfs: nat := 0;
    for d := 0 to |drawcalls|
      invariant indices == Flatten(drawcalls[..d])
      invariant ranges == Ranges(drawcalls[..d])
      invariant iOfs == |indices|
    {
      var dc := drawcalls[d];
      PrefixStep(drawcalls, d);
      indices := AppendTris(indices, dc.tris);
      var iSize := |dc.tris| * 3;
      var mtlIndex := if dc.mtlIndex > -1 then dc.mtlIndex else -1;
      ranges := ranges + [IndexRange(iOfs, iSize, 0, mtlIndex)];
      iOfs := |indices|;
    }
    assert drawcalls[..|drawcalls|] == drawcalls;
    RangesCorrect(drawcalls);
  }
}

=== FILE: int_types.dfy ===
/** The fixed-width integer types of the renderer, written out explicitly.
    `size_t` quantities (vector sizes, range starts and sizes) are modelled as
    `nat`: a vector cannot hold anywhere near 2^64 elements, so they never wrap. */
module IntTypes {

  const U32_LIMIT: int := 0x1_0000_0000

  /** C++ `unsigned` / Direct3D `UINT`: 32-bit unsigned. */
  type u32 = x: int | 0 <= x < U32_LIMIT

  /** C++ `int`: 32-bit signed. */
  type i32 = x: int | -0x8000_0000 <= x < 0x8000_0000

  /** Position `p` lies in the half-open interval of `count` positions from `start`. */
  predicate Within(p: int, start: int, count: int)
  {
    start <= p < start + count
  }

  /** The implicit conversion of a `size_t` argument to a `UINT` parameter:
      only the low 32 bits survive. */
  function Narrow32(x: nat): (r: u32)
    ensures x < U32_LIMIT ==> r == x
    ensures (x - r) % U32_LIMIT == 0
  {
    x % U32_LIMIT
  }
}

=== FILE: mesh.dfy ===
/** The parsed mesh that the OBJ loader hands to the model: a flat vertex list,
    drawcalls (a material index plus a list of triangles) and a material list.
    The parser itself is not part of this model; its output is the input here. */
module Mesh {
  import opened IntTypes
  import opened Device

  /** Three real coordinates (the source stores 32-bit floats). */
  datatype Vec3 = Vec3(x: real, y: real, z: real)
  datatype Vec2 = Vec2(u: real, v: real)

  /** `vertex_t`: position, normal and texture coordinate. */
  datatype Vertex = Vertex(pos: Vec3, normal: Vec3, texCoord: Vec2)

  /** A triangle: the three vertex indices `vi[0..3]`. */
  datatype Tri = Tri(v0: u32, v1: u32, v2: u32)

  /** A group of triangles sharing one material; `mtlIndex` may be negative
      when the asset names no material. */
  datatype Drawcall = Drawcall(mtlIndex: i32, tris: seq<Tri>)

  /** `material_t`, reduced to what the core reads: the diffuse texture path
      (`map_Kd`, empty when there is none) and the diffuse shader-resource view
      (`map_Kd_TexSRV`), which texture loading sets and `render` binds. */
  datatype Material = Material(mapKd: string, kdView: Handle)

  datatype MeshData = MeshData(vertices: seq<Vertex>, drawcalls: seq<Drawcall>, materials: seq<Material>)

  /** The three indices a triangle contributes to an index list, in order. */
  function TriIndices(t: Tri): seq<u32>
  {
    [t.v0, t.v1, t.v2]
  }
}

=== FILE: obj_model.dfy ===
/** `OBJModel_t`: geometry loaded from a parsed mesh. Its constructor flattens
    the drawcalls into one index buffer plus one index range per drawcall and
    copies the mesh's materials, loading their textures; `render` walks the ranges in order, binding
    each range's material texture before drawing it. */
module ObjModel {
  import opened IntTypes
  import opened Device
  import opened Mesh
  import opened Geometry
  import opened IndexRanges

  /** The members that outlive the constructor. */
  datatype Model = Model(buffers: Buffers, ranges: seq<IndexRange>, materials: seq<Material>)

  /** A constructed model together with the data handed to the device. */
  datatype Built = Built(model: Model, uploads: Uploads)

  /** `append_materials`: existing entries stay in place, `v` follows in order. */
  function AppendMaterials(table: seq<Material>, v: seq<Material>): (r: seq<Material>)
    ensures |r| == |table| + |v|
    ensures r[..|table|] == table
    ensures r[|table|..] == v
  {
    table + v
  }

  /** Appending nothing leaves the table unchanged, and two appends in a row
      are one append of both lists. */
  lemma AppendMaterialsLaws(table: seq<Material>, v: seq<Material>, w: seq<Material>)
    ensures AppendMaterials(table, []) == table
    ensures AppendMaterials(AppendMaterials(table, v), w) == AppendMaterials(table, v + w)
  {
    assert (table + v) + w == table + (v + w);
  }

  /** The diffuse view material `m`, at position `i` of the table, ends up
      with: a material with a texture path gets what the texture loader yields
      for it (`load(i)`, null when loading failed); one without keeps its view. */
  function LoadedView(m: Material, i: nat, load: nat -> Handle): Handle
  {
    if |m.mapKd| > 0 then load(i) else m.kdView
  }

  /** The texture loop of the constructor: every material of the table, in
      place, whatever the earlier loads yielded; a failed load is not an error. */
  function LoadTextures(ms: seq<Material>, load: nat -> Handle): (r: seq<Material>)
    ensures |r| == |ms|
    ensures forall i :: 0 <= i < |ms| ==> r[i].mapKd == ms[i].mapKd && r[i].kdView == LoadedView(ms[i], i, load)
  {
    if |ms| == 0 then []
    else
      var n := |ms| - 1;
      LoadTextures(ms[..n], load) + [ms[n].(kdView := LoadedView(ms[n], n, load))]
  }

  /** Texture loading is local to each material: two loaders that differ only
      on material `k` give tables that differ at most in material `k`, so one
      failed load degrades only its own material. */
  lemma LoadFailureIsLocal(ms: seq<Material>, load1: nat -> Handle, load2: nat -> Handle, k: nat)
    requires forall i: nat :: i != k ==> load1(i) == load2(i)
    ensures forall i :: 0 <= i < |ms| && i != k ==> LoadTextures(ms, load1)[i] == LoadTextures(ms, load2)[i]
  {
  }

  /** `OBJModel_t::OBJModel_t`: the flat index list and ranges its drawcall
      loop builds, the vertex and index uploads, and the material table, which
      starts empty, receives the mesh's materials once and then has its
      textures loaded. `vb` and `ib` are the handles `CreateBuffer` produced;
      `load(i)` is the view the texture loader yields for material `i`. */
  function Construct(mesh: MeshData, vb: Handle, ib: Handle, load: nat -> Handle): (b: Built)
    ensures b.model.buffers == Buffers(vb, ib)
    ensures b.uploads.vertexData == mesh.vertices
    ensures IsPartition(b.model.ranges, |b.uploads.indexData|)
    ensures MatchesDrawcalls(b.model.ranges, mesh.drawcalls, b.uploads.indexData)
    ensures SumSizes(b.model.ranges) == |b.uploads.indexData|
    ensures |b.model.materials| == |mesh.materials|
    ensures forall i :: 0 <= i < |mesh.materials| ==>
      b.model.materials[i].mapKd == mesh.materials[i].mapKd &&
      b.model.materials[i].kdView == LoadedView(mesh.materials[i], i, load)
  {
    var indices := Flatten(mesh.drawcalls);
    var ranges := Ranges(mesh.drawcalls);
    RangesCorrect(mesh.drawcalls);
    PartitionSum(ranges, |indices|);
    var materials := LoadTextures(AppendMaterials([], mesh.materials), load);
    Built(Model(Buffers(vb, ib), ranges, materials), Uploads(mesh.vertices, indices))
  }

  /** The lookup `materials[irange.mtl_index]` has no bounds check: `render` is
      only defined when every range names an existing material. */
  predicate MaterialsInBounds(m: Model)
  {
    forall i :: 0 <= i < |m.ranges| ==> 0 <= m.ranges[i].mtlIndex < |m.materials|
  }

  /** The draw of one range: `DrawIndexed(size, start, 0)`, its `size_t`
      arguments narrowed to `UINT`. */
  function RangeDraw(r: IndexRange): Command
  {
    DrawIndexed(Narrow32(r.size), Narrow32(r.start), 0)
  }

  /** `OBJModel_t::render`'s per-range loop: per range, bind its material's diffuse
      texture, then draw it. */
  function DrawRanges(rs: seq<IndexRange>, materials: seq<Material>): (trace: seq<Command>)
    requires forall i :: 0 <= i < |rs| ==> 0 <= rs[i].mtlIndex < |materials|
    ensures |trace| == 2 * |rs|
    ensures forall i :: 0 <= i < |rs| ==>
      trace[2 * i] == BindTexture(materials[rs[i].mtlIndex].kdView) && trace[2 * i + 1] == RangeDraw(rs[i])
  {
    if |rs| == 0 then []
    else [BindTexture(materials[rs[0].mtlIndex].kdView), RangeDraw(rs[0])] + DrawRanges(rs[1..], materials)
  }

  /** `OBJModel_t::render`: bind the buffers once, then the per-range loop. */
  function Render(m: Model): (trace: seq<Command>)
    requires MaterialsInBounds(m)
    ensures |trace| == 3 + 2 * |m.ranges|
    ensures trace[..3] == Bind(m.buffers)
    ensures forall i :: 0 <= i < |m.ranges| ==>
      trace[3 + 2 * i] == BindTexture(m.materials[m.ranges[i].mtlIndex].kdView) &&
      trace[3 + 2 * i + 1] == RangeDraw(m.ranges[i])
  {
    Bind(m.buffers) + DrawRanges(m.ranges, m.materials)
  }

  /** The draws of the per-range loop are the ranges' draws, in stored order. */
  lemma {:induction false} DrawRangesDraws(rs: seq<IndexRange>, materials: seq<Material>)
    requires forall i :: 0 <= i < |rs| ==> 0 <= rs[i].mtlIndex < |materials|
    ensures |Draws(DrawRanges(rs, materials))| == |rs|
    ensures forall i :: 0 <= i < |rs| ==> Draws(DrawRanges(rs, materials))[i] == RangeDraw(rs[i])
  {
    if |rs| > 0 {
      var head := [BindTexture(materials[rs[0].mtlIndex].kdView), RangeDraw(rs[0])];
      var rest := DrawRanges(rs[1..], materials);
      DrawRangesDraws(rs[1..], materials);
      DrawsAppend(head, rest);
      assert head[1..][1..] == [];
      assert Draws(head) == [RangeDraw(rs[0])];
    }
  }

  /** `render` issues exactly one draw per stored range, in stored order. */
  lemma RenderDraws(m: Model)
    requires MaterialsInBounds(m)
    ensures |Draws(Render(m))| == |m.ranges|
    ensures forall i :: 0 <= i < |m.ranges| ==> Draws(Render(m))[i] == RangeDraw(m.ranges[i])
  {
    DrawsAppend(Bind(m.buffers), DrawRanges(m.ranges, m.materials));
    BindDrawsNothing(m.buffers);
    DrawRangesDraws(m.ranges, m.materials);
  }

  /** A constructed model can be rendered exactly when every drawcall of the
      mesh names an existing material. */
  lemma RenderableIff(mesh: MeshData, vb: Handle, ib: Handle, load: nat -> Handle)
    ensures MaterialsInBounds(Construct(mesh, vb, ib, load).model) <==>
      forall k :: 0 <= k < |mesh.drawcalls| ==> 0 <= mesh.drawcalls[k].mtlIndex < |mesh.materials|
  {
    var m := Construct(mesh, vb, ib, load).model;
    if MaterialsInBounds(m) {
      forall k | 0 <= k < |mesh.drawcalls|
        ensures 0 <= mesh.drawcalls[k].mtlIndex < |mesh.materials|
      {
        assert 0 <= m.ranges[k].mtlIndex;
      }
    }
  }

  /** A drawcall without a material is stored with the sentinel -1, which the
      unchecked lookup in `render` would use as an index. */
  lemma MissingMaterialReachesLookup(mesh: MeshData, vb: Handle, ib: Handle, load: nat -> Handle, k: nat)
    requires k < |mesh.drawcalls| && mesh.drawcalls[k].mtlIndex < 0
    ensures Construct(mesh, vb, ib, load).model.ranges[k].mtlIndex == -1
    ensures !MaterialsInBounds(Construct(mesh, vb, ib, load).model)
  {
    RenderableIff(mesh, vb, ib, load);
  }

  /** Some draw of `draws` reads index position `p`. */
  predicate DrawCovered(draws: seq<Command>, p: int)
  {
    exists i :: 0 <= i < |draws| && Covers(draws[i], p)
  }

  /** The draws `d` read the index list `ix` as the drawcalls `dcs` lay it
      out: every position is read by some draw, by no more than one, nothing
      outside the list is read, and draw `k` reads exactly drawcall `k`'s
      triangle indices. */
  ghost predicate DrawsTile(d: seq<Command>, ix: seq<u32>, dcs: seq<Drawcall>)
  {
    && |d| == |dcs|
    && (forall p :: 0 <= p < |ix| ==> DrawCovered(d, p))
    && (forall i, j, p :: 0 <= i < |d| && 0 <= j < |d| && Covers(d[i], p) && Covers(d[j], p) ==> i == j)
    && (forall i, p :: 0 <= i < |d| && Covers(d[i], p) ==> 0 <= p < |ix|)
    && (forall i :: 0 <= i < |d| ==>
          d[i].DrawIndexed? && d[i].start + d[i].count <= |ix| &&
          ix[d[i].start..d[i].start + d[i].count] == FlattenTris(dcs[i].tris))
  }

  /** For ranges that tile fewer than 2^32 positions, the draw issued for
      each range carries that range's start and size unchanged. */
  lemma DrawsKeepRanges(rs: seq<IndexRange>, total: nat, d: seq<Command>)
    requires IsPartition(rs, total) && total < U32_LIMIT
    requires |d| == |rs| && forall i :: 0 <= i < |rs| ==> d[i] == RangeDraw(rs[i])
    ensures forall i :: 0 <= i < |d| ==> d[i].DrawIndexed? && d[i].count == rs[i].size && d[i].start == rs[i].start
  {
    forall i | 0 <= i < |d|
      ensures d[i].DrawIndexed? && d[i].count == rs[i].size && d[i].start == rs[i].start
    {
      PartitionBounded(rs, total, i);
    }
  }

  /** Every position of a tiled index list is read by some draw. */
  lemma DrawsCoverAll(rs: seq<IndexRange>, total: nat, d: seq<Command>)
    requires IsPartition(rs, total) && total < U32_LIMIT
    requires |d| == |rs| && forall i :: 0 <= i < |rs| ==> d[i] == RangeDraw(rs[i])
    ensures forall p :: 0 <= p < total ==> DrawCovered(d, p)
  {
    DrawsKeepRanges(rs, total, d);
    PartitionCovers(rs, total);
    forall p | 0 <= p < total
      ensures DrawCovered(d, p)
    {
      assert Covered(rs, p);
      var i :| 0 <= i < |rs| && InRange(rs[i], p);
      assert Covers(d[i], p);
    }
  }

  /** No position of a tiled index list is read by two draws, and no draw
      reads outside the list. */
  lemma DrawsDisjoint(rs: seq<IndexRange>, total: nat, d: seq<Command>)
    requires IsPartition(rs, total) && total < U32_LIMIT
    requires |d| == |rs| && forall i :: 0 <= i < |rs| ==> d[i] == RangeDraw(rs[i])
    ensures forall i, j, p :: 0 <= i < |d| && 0 <= j < |d| && Covers(d[i], p) && Covers(d[j], p) ==> i == j
    ensures forall i, p :: 0 <= i < |d| && Covers(d[i], p) ==> 0 <= p < total
  {
    DrawsKeepRanges(rs, total, d);
    PartitionCovers(rs, total);
    assert forall i, p :: 0 <= i < |d| ==> (Covers(d[i], p) <==> InRange(rs[i], p));
  }

  /** Draw `k` reads exactly drawcall `k`'s triangle indices. */
  lemma DrawsReadDrawcalls(rs: seq<IndexRange>, dcs: seq<Drawcall>, ix: seq<u32>, d: seq<Command>)
    requires MatchesDrawcalls(rs, dcs, ix) && |ix| < U32_LIMIT
    requires |d| == |rs| && forall i :: 0 <= i < |rs| ==> d[i] == RangeDraw(rs[i])
    ensures forall i :: 0 <= i < |d| ==>
      d[i].DrawIndexed? && d[i].start + d[i].count <= |ix| &&
      ix[d[i].start..d[i].start + d[i].count] == FlattenTris(dcs[i].tris)
  {
    forall i | 0 <= i < |d|
      ensures d[i].DrawIndexed? && d[i].start + d[i].count <= |ix| &&
        ix[d[i].start..d[i].start + d[i].count] == FlattenTris(dcs[i].tris)
    {
      DrawReadsDrawcall(rs[i], dcs[i], ix);
    }
  }

  /** The draw for one range matched to its drawcall, within an index list of
      fewer than 2^32 entries, reads exactly that drawcall's indices. */
  lemma DrawReadsDrawcall(r: IndexRange, dc: Drawcall, ix: seq<u32>)
    requires RangeMatches(r, dc, ix) && |ix| < U32_LIMIT
    ensures RangeDraw(r).start == r.start && RangeDraw(r).count == r.size
    ensures ix[RangeDraw(r).start..RangeDraw(r).start + RangeDraw(r).count] == FlattenTris(dc.tris)
  {
  }

  /** Draws issued for ranges that tile an index list of fewer than 2^32
      entries, one range per drawcall: narrowing loses nothing and the draws
      read the list as the drawcalls lay it out. */
  lemma {:induction false} PartitionDraws(rs: seq<IndexRange>, dcs: seq<Drawcall>, ix: seq<u32>, d: seq<Command>)
    requires IsPartition(rs, |ix|) && MatchesDrawcalls(rs, dcs, ix) && |ix| < U32_LIMIT
    requires |d| == |rs| && forall i :: 0 <= i < |rs| ==> d[i] == RangeDraw(rs[i])
    ensures DrawsTile(d, ix, dcs)
  {
    DrawsCoverAll(rs, |ix|, d);
    DrawsDisjoint(rs, |ix|, d);
    DrawsReadDrawcalls(rs, dcs, ix, d);
  }

  /** When the index count fits a `UINT`, the draws `render` issues for a
      constructed model read every position of the index buffer exactly once,
      and draw `k` reads exactly drawcall `k`'s triangle indices. */
  lemma RenderCoversIndexBuffer(mesh: MeshData, vb: Handle, ib: Handle, load: nat -> Handle)
    requires MaterialsInBounds(Construct(mesh, vb, ib, load).model)
    requires |Construct(mesh, vb, ib, load).uploads.indexData| < U32_LIMIT
    ensures DrawsTile(Draws(Render(Construct(mesh, vb, ib, load).model)),
                      Construct(mesh, vb, ib, load).uploads.indexData, mesh.drawcalls)
  {
    var b := Construct(mesh, vb, ib, load);
    RenderDraws(b.model);
    PartitionDraws(b.model.ranges, mesh.drawcalls, b.uploads.indexData, Draws(Render(b.model)));
  }

  /** The partition of a mesh whose drawcalls hold 6, 12 and 3 triangles. */
  lemma PartitionExample(mesh: MeshData, vb: Handle, ib: Handle, load: nat -> Handle)
    requires |mesh.drawcalls| == 3
    requires |mesh.drawcalls[0].tris| == 6 && |mesh.drawcalls[1].tris| == 12 && |mesh.drawcalls[2].tris| == 3
    ensures var b := Construct(mesh, vb, ib, load);
      var rs := b.model.ranges;
      && |rs| == 3
      && rs[0].start == 0 && rs[0].size == 18
      && rs[1].start == 18 && rs[1].size == 36
      && rs[2].start == 54 && rs[2].size == 9
      && |b.uploads.indexData| == 63
  {
  }

  /** A two-material mesh with drawcalls of 2 and 4 triangles: two ranges over
      18 indices, and `render` binds material 0's texture, draws the first
      range, binds material 1's texture, draws the second. */
  lemma TwoMaterialScenario(mesh: MeshData, vb: Handle, ib: Handle, load: nat -> Handle)
    requires |mesh.materials| == 2 && |mesh.drawcalls| == 2
    requires mesh.drawcalls[0].mtlIndex == 0 && |mesh.drawcalls[0].tris| == 2
    requires mesh.drawcalls[1].mtlIndex == 1 && |mesh.drawcalls[1].tris| == 4
    ensures var b := Construct(mesh, vb, ib, load);
      && |b.model.ranges| == 2
      && |b.uploads.indexData| == 18
      && MaterialsInBounds(b.model)
      && Render(b.model)[3..] == [
           BindTexture(LoadedView(mesh.materials[0], 0, load)), DrawIndexed(6, 0, 0),
           BindTexture(LoadedView(mesh.materials[1], 1, load)), DrawIndexed(12, 6, 0)]
  {
    var b := Construct(mesh, vb, ib, load);
    assert MaterialsInBounds(b.model);
    var t := Render(b.model);
    assert t[3..] == [t[3], t[4], t[5], t[6]];
  }
}

=== FILE: quad.dfy ===
/** `Quad_t`: a unit square in the z = 0 plane, facing +z, built from a fixed
    list of four vertices and six indices and drawn with one indexed draw. */
module Quad {
  import opened IntTypes
  import opened Device
  import opened Mesh
  import opened Geometry

  /** The quad's members: the owned buffers, the CPU-side vertex and index
      vectors, and the index count remembered for `render`. */
  datatype QuadState = QuadState(buffers: Buffers, vertices: seq<Vertex>, indices: seq<u32>, nbrIndices: u32)

  const FacingZ: Vec3 := Vec3(0.0, 0.0, 1.0)

  /** Corners counter-clockwise from the lower left, all with normal +z. */
  const QuadVertices: seq<Vertex> := [
    Vertex(Vec3(-0.5, -0.5, 0.0), FacingZ, Vec2(0.0, 0.0)),
    Vertex(Vec3( 0.5, -0.5, 0.0), FacingZ, Vec2(0.0, 1.0)),
    Vertex(Vec3( 0.5,  0.5, 0.0), FacingZ, Vec2(1.0, 1.0)),
    Vertex(Vec3(-0.5,  0.5, 0.0), FacingZ, Vec2(1.0, 0.0))
  ]

  /** Two triangles: (0, 1, 3) and (1, 2, 3). */
  const QuadIndices: seq<u32> := [0, 1, 3, 1, 2, 3]

  datatype Built = Built(quad: QuadState, uploads: Uploads)

  /** `Quad_t::Quad_t`: fills the vertex and index vectors, hands them to the
      device, then clears them and keeps only the index count. `vb` and `ib`
      are the handles `CreateBuffer` produced. */
  function Construct(vb: Handle, ib: Handle): (b: Built)
    ensures b.uploads.vertexData == QuadVertices
    ensures |b.uploads.indexData| == 6
    ensures b.uploads.indexData[..3] == [0, 1, 3] && b.uploads.indexData[3..] == [1, 2, 3]
    ensures forall i :: 0 <= i < |b.uploads.indexData| ==> b.uploads.indexData[i] < |b.uploads.vertexData|
    ensures forall v :: 0 <= v < |b.uploads.vertexData| ==> v in b.uploads.indexData
    ensures b.quad.buffers == Buffers(vb, ib)
    ensures b.quad.vertices == [] && b.quad.indices == []
    ensures b.quad.nbrIndices == |b.uploads.indexData|
  {
    var vertices := QuadVertices;
    var indices := QuadIndices;
    var uploads := Uploads(vertices, indices);
    Built(QuadState(Buffers(vb, ib), [], [], |indices|), uploads)
  }

  /** `Quad_t::render`: bind, then one draw of `nbrIndices` indices from 0. */
  function Render(q: QuadState): (trace: seq<Command>)
    ensures |trace| == 4 && trace[..3] == Bind(q.buffers)
    ensures Draws(trace) == [DrawIndexed(q.nbrIndices, 0, 0)]
  {
    var trace := Bind(q.buffers) + [DrawIndexed(q.nbrIndices, 0, 0)];
    BindDrawsNothing(q.buffers);
    DrawsAppend(Bind(q.buffers), [DrawIndexed(q.nbrIndices, 0, 0)]);
    assert Draws([DrawIndexed(q.nbrIndices, 0, 0)]) == [DrawIndexed(q.nbrIndices, 0, 0)] + Draws([]);
    trace
  }

  /** After construction the single draw reads exactly the uploaded index list. */
  lemma ConstructedQuadDrawsAllIndices(vb: Handle, ib: Handle)
    ensures var b := Construct(vb, ib);
      Draws(Render(b.quad)) == [DrawIndexed(6, 0, 0)] &&
      forall p :: Covers(DrawIndexed(6, 0, 0), p) <==> 0 <= p < |b.uploads.indexData|
  {
  }

  /** Twice the signed area of the projection of triangle (a, b, c) on z = 0. */
  function Cross2(a: Vec3, b: Vec3, c: Vec3): real
  {
    (b.x - a.x) * (c.y - a.y) - (b.y - a.y) * (c.x - a.x)
  }

  /** Position of corner `k` of the quad's triangle `t`. */
  function Corner(t: nat, k: nat): Vec3
    requires t < 2 && k < 3
  {
    QuadVertices[QuadIndices[3 * t + k]].pos
  }

  /** Both triangles of the quad are non-degenerate and wound counter-clockwise
      seen from +z, the side their common normal points to. */
  lemma QuadTrianglesFaceNormal()
    ensures forall t :: 0 <= t < 2 ==> Cross2(Corner(t, 0), Corner(t, 1), Corner(t, 2)) > 0.0
    ensures forall v :: 0 <= v < |QuadVertices| ==> QuadVertices[v].normal == FacingZ
  {
  }
}
